=== FILE: README.md ===
# DisplayTitle: a Dafny model of the display-title decisions

DisplayTitle is a MediaWiki extension. It shows a page's `displaytitle` page
property in place of the page's real name: in link texts, in the
`#getdisplaytitle` parser function, in talk page headings and in the personal
navigation. When a page is shown under its display title, a subtitle with the
real name is added. This project models the extension's own decision logic
as pure Dafny functions and proves properties of them. It covers all three
generations in the repository:

- the service class (`includes/DisplayTitleService.php`): `handleLink`, `getDisplayTitle`, `setSubtitle`;
- the hook class (`includes/DisplayTitleHooks.php`): its own `handleLink` and
  `getDisplayTitle`, the link, self-link, page-display, talk-page and
  navigation hooks, and the parser function;
- the legacy static hook class (`DisplayTitleHooks.php`): `onLinkBegin`,
  `onSelfLinkBegin`, the older lookup without redirects, the subtitle, the
  talk-page heading and the parser function.

Modules:

- `Wrappers` (`wrappers.dfy`): `Option`.
- `PhpStrings` (`php_strings.dfy`): the PHP built-ins the logic depends on.
  These are `str_replace('_', ' ', …)`, `str_replace('&#160;', '', …)`,
  `strip_tags`, `trim`, `(string)$int`, and `substr` with negative arguments.
- `Wiki` (`wiki.dfy`): the `Title` record and the read-only stores. The stores
  are the title parser, the redirect table and the `displaytitle` property. The
  module also holds the link-text slot (`Unset | Str | Int | Armored`, where
  `Armored` stands for `HtmlArmor`) and the extension's three settings.
- `Lookup` (`lookup.dfy`): both versions of `getDisplayTitle`.
- `Links` (`links.dfy`): the customisation check and every link hook.
- `Pages` (`pages.dfy`): subtitles, talk-page headings, the parser function
  and the navigation entries.
- `TestSuiteWiki` and `Scenarios` (`scenarios.dfy`): the integration test
  suite's wiki, with its expected link texts, stated as lemmas.

Each hook is a function from its inputs to the value it writes. The link
hooks return the new slot plus whether a display title was put in. The
subtitle hooks return the new subtitle, or `None` when they leave it alone.
`getDisplayTitle` returns `Some(text)` when it returns true after setting
`$displaytitle`, and `None` otherwise.

The central property is `Links.CheckLabel`. A label counts as "not
customised" exactly when it matches the reference predicate
`Links.NamesTarget`. Without a fragment, that means the label equals the
target's prefixed text or its bare name. With a fragment (outside
categories), it means the label is a non-empty prefixed text or page text
followed by `#` and the fragment. The implementation follows the source's
`substr` arithmetic, and the proof connects it to the reference predicate.

Where the code and its comments differ, the model follows the code. In the
service's `handleLink`, the redirect guard compares the current page's name
with the link target. It does not compare the redirect's target with the link
target, as the comment above it suggests (`includes/DisplayTitleService.php:118-126`).

## Model

| member | source | states |
|---|---|---|
| `PhpStrings.UnderscoresToSpaces` | includes/DisplayTitleService.php:132 | every `_` becomes a space, every other character and the length are kept, and no `_` is left |
| `PhpStrings.StripTags` | includes/DisplayTitleService.php:137-138 | the result holds no `<`, is no longer than the input, and only uses the input's characters; markup-free text is unchanged |
| `PhpStrings.StripTagsDropsTag` | includes/DisplayTitleService.php:137-138 | a complete highlighting tag in front of a text disappears |
| `PhpStrings.StripTagsKeepsPlainPrefix` | includes/DisplayTitleService.php:137-138 | text before the first `<` survives tag stripping unchanged |
| `PhpStrings.StripTagsSurrounded` | includes/DisplayTitleService.php:137-138 | markup-free text between an opening and a closing tag is all that tag stripping leaves, as for a search-highlighted title |
| `PhpStrings.RemoveNbspEntities` | includes/DisplayTitleService.php:207 | deleting `&#160;` never lengthens the text and leaves text without `&` alone |
| `PhpStrings.RemoveNbspEntitiesKeepsPlainPrefix` | includes/DisplayTitleService.php:207 | text without `&` is copied through whatever follows it |
| `PhpStrings.RemoveNbspEntitiesKeepsAmpersand` | includes/DisplayTitleService.php:207 | a `&` that does not begin `&#160;`, as in `&amp;`, is kept; with `RemoveNbspEntitiesSplits` and `RemoveNbspEntitiesKeepsPlainPrefix` this fixes the deletion on every text |
| `PhpStrings.RemoveNbspEntitiesSplits` | includes/DisplayTitleService.php:207 | an entity after `&`-free text is deleted while that text is copied through |
| `PhpStrings.Trim` | includes/DisplayTitleService.php:207 | `trim` returns a stretch of the input with only space, tab, LF, CR, NUL or vertical tab before and after it, and no such character at either of its own ends; it is empty exactly when the text consists of those characters |
| `PhpStrings.NatToDecimalRoundTrip` | includes/DisplayTitleService.php:133-134 | reading back the digits of a natural number gives the number |
| `PhpStrings.IntToDecimal` | includes/DisplayTitleService.php:133-134 | the rendering starts with `-` exactly for negative integers, continues with decimal digits only, at least one, and is canonical: no leading zero, and 0 renders as `0` |
| `PhpStrings.IntToDecimalRoundTrip` | includes/DisplayTitleService.php:133-134 | the decimal rendering of an integer link text parses back to that integer |
| `PhpStrings.IntToDecimalInjective` | includes/DisplayTitleService.php:133-134 | distinct integer link texts render as distinct strings |
| `PhpStrings.LastCharsIsSuffixTest` | includes/DisplayTitleService.php:146-147 | comparing `substr($text, -strlen($fragment))` with a non-empty fragment is exactly a suffix test |
| `PhpStrings.CutSuffix` | includes/DisplayTitleService.php:147-149 | a text ending in the fragment is recognised, and cutting the fragment off gives back the part before it |
| `Lookup.BlankMeansOnlyTrimmable` | includes/DisplayTitleService.php:207 | a property is blank exactly when every character surviving tag and entity removal is trimmable |
| `Lookup.PlainBlankIsWhitespace` | includes/DisplayTitleService.php:207 | for a value without markup or entities, blank means whitespace only |
| `Lookup.ResolvePage` | includes/DisplayTitleService.php:195-202 | a redirect is followed exactly when following is on and the page is a redirect; then the target is consulted, otherwise the page itself |
| `Lookup.GetDisplayTitle` | includes/DisplayTitleService.php:185-224 | pages that cannot exist have no display title. An acceptable property (non-blank, not the original name) of the consulted page is always shown. A rejected property never falls back to the redirect target's name. Without a property, a name is returned exactly when a redirect was followed |
| `Lookup.NotFollowingIgnoresRedirects` | includes/DisplayTitleHooks.php:304-311 | with redirect following off, the redirect table has no influence on the lookup |
| `Lookup.RedirectShowsTargetDisplayTitle` | includes/DisplayTitleHooks.php:305-324 | a redirect shows its target's acceptable display title when redirects are followed, and nothing when they are not |
| `Lookup.RedirectWithoutDisplayTitleShowsTargetName` | includes/DisplayTitleService.php:216-222 | a followed redirect to a page without a display title shows the target's prefixed text |
| `Lookup.LegacyGetDisplayTitle` | DisplayTitleHooks.php:193-210 | the legacy lookup returns nothing for a name that no longer parses; it shows exactly the acceptable properties of the re-parsed page and never follows redirects |
| `Lookup.LegacyAgreesWithoutRedirects` | DisplayTitleHooks.php:193-210 | where re-parsing gives the same page without its fragment, the legacy lookup equals the current one with redirect following off |
| `Links.TitlePart` | includes/DisplayTitleService.php:144-157 | a title part, when found, is non-empty, and appending `#` and the fragment to it gives back the label |
| `Links.TitlePartFinds` | includes/DisplayTitleService.php:146-155 | a non-empty name followed by `#` and the fragment is split back into that name |
| `Links.TitlePartExactly` | includes/DisplayTitleService.php:144-157 | the title part is found exactly when the label is a non-empty name followed by `#` and the fragment |
| `Links.CheckLabel` | includes/DisplayTitleService.php:142-168 | a label counts as not customised exactly when the reference predicate `NamesTarget` holds. With `wrap`, a label that splits at its fragment is put back as the armored title part, whether or not it counts as customised. In every other case the slot is untouched |
| `Links.ServiceText` | includes/DisplayTitleService.php:129-140 | a string label becomes the same text with each `_` turned into a space. An integer label becomes its canonical decimal rendering, which parses back to the integer. An armored label becomes its tag-stripped text with each `_` turned into a space |
| `Links.HandleLink` | includes/DisplayTitleService.php:112-173 | excluded pages, a redirect's link to its own name and unset link texts keep the slot. A display title is put in exactly when the normalised label names the target and the lookup finds one. Otherwise, under `wrap`, a label that splits at its fragment is left as the armored title part, even when it is kept as customised; nothing else changes |
| `Links.HooksText` | includes/DisplayTitleHooks.php:172-180 | as the service's normalisation, except that an armored label keeps its tags: its HTML with each `_` turned into a space |
| `Links.HooksHandleLink` | includes/DisplayTitleHooks.php:170-213 | a display title is put in exactly when the slot is unset or names the target (bare name `getText`) and the lookup finds one. Otherwise, under `wrap`, a label that splits at its fragment is left as the armored title part, customised or not; nothing else changes |
| `Links.OnHtmlPageLinkRendererBegin` | includes/DisplayTitleHooks.php:122-132 | an excluded request title leaves the link alone; a missing one counts as excluded when `""` is excluded. Otherwise a display title is put in, as armored HTML, exactly when the hook class's check allows it. When none is put in, a label that is a non-empty text followed by `#` and the fragment, on a target with a fragment outside the category namespace, is cut to that text; any other text is kept |
| `Links.OnSelfLinkBegin` | includes/DisplayTitleHooks.php:146-155 | the same exclusion. A self-link keeps its slot exactly unless a display title is put in as a plain string |
| `Links.LegacyOnLinkBegin` | DisplayTitleHooks.php:76-90 | string labels get a display title only when they parse to the target's text in its subject namespace or in none; other slots are always looked up; nothing else changes |
| `Links.LegacyOnSelfLinkBegin` | DisplayTitleHooks.php:105-109 | a self-link gets the display title exactly when the legacy lookup finds one, whatever its label |
| `Links.CustomLabelKept` | tests/phpunit/DisplayTitleTest.php:297-302 | for a target without a fragment, or one in the category namespace, a plain label that is none of the target's names is kept by the service and by the link renderer hook |
| `Links.NameLabelRendered` | tests/phpunit/DisplayTitleTest.php:268-273 | a label equal to the target's prefixed name gets the display title if there is one, and is kept otherwise |
| `Links.UnsetSlotVariants` | includes/DisplayTitleHooks.php:170-172 | an unset slot is never looked up by the service, and always looked up by the hook class |
| `Links.HighlightedLabelVariants` | includes/DisplayTitleService.php:135-139 | a label that is the target's name between an opening and a closing highlight tag gets the display title from the service, which strips tags, but not from the hook class |
| `Links.FragmentLabelCut` | includes/DisplayTitleHooks.php:184-203 | with `wrap`, a name-plus-fragment label of a target without display title is left as the name alone |
| `Links.LegacyUnsetLinkAgrees` | DisplayTitleHooks.php:86-88 | for a target that re-parses to itself, with redirects not followed, the legacy `onLinkBegin` and the hook class's check give a link without text the same outcome |
| `Links.LegacyNameLinkAgrees` | DisplayTitleHooks.php:78-85 | the same agreement for a plain label that is the target's prefixed name |
| `Links.LegacySelfLinkAgrees` | includes/DisplayTitleHooks.php:146-155 | for a page that re-parses to itself, with redirects not followed, a self-link that is unset or names the page gets the same outcome from the legacy and the current `onSelfLinkBegin` |
| `Links.CustomSelfLinkVariants` | DisplayTitleHooks.php:105-109 | a customised self-link is kept by the current hook but replaced by the legacy one whenever the legacy lookup finds a display title |
| `Pages.SetSubtitle` | includes/DisplayTitleService.php:233-251 | the hide flag suppresses the subtitle, and so does a talk page whose subject page does not exist. Otherwise a subtitle appears exactly when the page (or the subject page) has a display title, and it is the span around the viewed page's own name |
| `Pages.SubtitleShowsRealName` | includes/DisplayTitleService.php:248-250 | with markup removed, the service's subtitle is exactly the viewed page's real name |
| `Pages.JoinSubtitle` | includes/DisplayTitleHooks.php:237-241 | the new subtitle is the page name, then ` / ` and the old subtitle when it is non-empty; the old subtitle can be read back from its end |
| `Pages.OnBeforePageDisplay` | includes/DisplayTitleHooks.php:224-244 | the hide flag and a talk page without an existing subject page leave the subtitle alone. Otherwise the subtitle is replaced exactly when a display title is found |
| `Pages.LegacyOnBeforePageDisplay` | DisplayTitleHooks.php:121-140 | the same decision with the legacy lookup. An unassigned `$found` counts as false |
| `Pages.LegacySubtitleAgrees` | DisplayTitleHooks.php:121-140 | when the page behind the heading re-parses to itself and redirects are not followed, the legacy and the current subtitle hooks set the same subtitle |
| `Pages.OnOutputPageParserOutput` | includes/DisplayTitleHooks.php:255-265 | a heading is replaced only for a talk page whose subject page exists and has a display title, and the subject's display title goes to the message |
| `Pages.LegacyOnParserBeforeStrip` | DisplayTitleHooks.php:153-165 | the same talk-page decision with the legacy lookup |
| `Pages.LegacyTalkHeadingAgrees` | DisplayTitleHooks.php:153-165 | when a talk page's subject page re-parses to itself, the legacy heading equals the current one with redirects not followed |
| `Pages.TalkHeadingComesWithSubtitle` | includes/DisplayTitleHooks.php:224-265 | when a talk page's heading takes the subject's display title, the subtitle is set too, unless subtitles are hidden |
| `Pages.GetDisplayTitleParserFunction` | includes/DisplayTitleHooks.php:67-73 | an unparsable name, or one without a display title, is returned unchanged; otherwise the display title is returned |
| `Pages.LegacyGetDisplayTitleParserFunction` | DisplayTitleHooks.php:48-55 | the same with the legacy lookup |
| `Pages.LegacyParserFunctionAgrees` | DisplayTitleHooks.php:48-55 | when the name parses to a page that re-parses to itself, the legacy parser function returns what the current one returns with redirects not followed |
| `Pages.ParserFunctionNeverReturnsBlank` | includes/DisplayTitleHooks.php:67-73 | without redirect following, the parser function returns the name itself or a non-blank display title different from the page's name |
| `Pages.OnSkinTemplateNavigation` | includes/DisplayTitleHooks.php:87-107 | anonymous users' links are unchanged and no entry appears or vanishes. When both `userpage` entries exist they get the same name, computed from the `user-menu` entry. The `user-page` entry is computed on its own only when the `user-menu` entry is missing |
| `TestSuiteWiki.TestWikiDisplayTitles` | tests/phpunit/DisplayTitleTest.php:151-177 | on the test wiki, a page with a display title and a redirect to it both yield `My displaytitle`. The page without one yields nothing. A redirect to that page yields the page's name |
| `Scenarios.LinkByNameShowsDisplayTitle` | tests/phpunit/DisplayTitleTest.php:268-273 | a link whose text is the page name shows the display title |
| `Scenarios.LowerCaseLinkKept` | tests/phpunit/DisplayTitleTest.php:282-287 | a link text differing from the page name in its first letter is kept |
| `Scenarios.CustomTextKept` | tests/phpunit/DisplayTitleTest.php:297-302 | the link text `abc` is kept |
| `Scenarios.LinkWithoutDisplayTitleKept` | tests/phpunit/DisplayTitleTest.php:95-100 | a link to a page without display title keeps the page name |
| `Scenarios.RedirectLinkShowsTargetDisplayTitle` | tests/phpunit/DisplayTitleTest.php:90-93 | a link to a redirect shows the target's display title |
| `Scenarios.RedirectLinkShowsTargetName` | tests/phpunit/DisplayTitleTest.php:95-98 | a link to a redirect whose target has no display title shows the target's name |

## Left out

- The Scribunto bridge (`includes/DisplayTitleLuaLibrary.php`, `includes/ScribuntoHooks.php`) is not modelled. It converts values through Scribunto code that is not part of this model, and it sets display titles through MediaWiki core's parser function.
- Hook registration (`onParserFirstCallInit`, `onScribuntoExternalLibraries`) is not modelled: it only names callbacks.
- Reading configuration, globals and the request is not modelled: the settings and the request's `title` parameter are parameters.
- MediaWiki's title parsing, namespace and subpage derivation, page existence, redirect lookup and page properties are not modelled. They are the record fields and maps of `Wiki`. `Title::exists()` is taken as "the article id is not 0", and page properties are only consulted for existing pages.
- `OutputPage` and `ParserOutput` mutation is modelled only as the string each hook would write.
- `wfMessage('displaytitle-talkpagetitle', …)` is localisation. The talk-page hooks return the display title handed to the message, not the rendered message.
- `PhpStrings.StripTags`: simplified. A `<` always opens a tag up to the next `>`. PHP's `strip_tags` also keeps a `<` followed by whitespace, and it handles quotes inside tags, comments and `<?` blocks. It also drops NUL characters outside tags, which the model keeps, and it counts a `<` nested inside a tag, so that `strip_tags("<a<b>c>d")` is `d` where the model gives `c>d`. `StripTagsDropsTag` and `StripTagsSurrounded` only require the tags to hold no `>`, so for a tag holding a `<` they state the model's reading, not PHP's.
- Loose comparisons are treated as plain string equality. This covers `!=` in `includes/DisplayTitleHooks.php:202,206` and `in_array` in the exclusion checks. PHP's numeric-string coercion (`"1e1" == "10"`) is not modelled. The one loose case that is modelled is a missing request `title`: it matches an excluded `""`.
- The link-text slot is modelled as unset, string, integer or `HtmlArmor`. Other PHP values (floats, booleans, other objects) give `$text = null`, and the service and the hook class treat them differently; those values are not modelled.
- Integers are unbounded. PHP's 64-bit limit does not change how an integer renders as text.
- `Links.HandleLink`: requires the current page name to parse when it is not excluded. The source calls `canExist()` on the result of `Title::newFromText` without a null check once the exclusion test has passed, so an unparsable name that is not excluded is a fatal error there, not a handled case.

=== FILE: links.dfy ===
/**
 The link-text customisation check (`handleLink`) and the link hooks around
 it. A label an editor wrote on purpose is kept; a label that is "just the
 target's name" is replaced by the target's display title.
 */
module Links {
  import opened Wrappers
  import opened PhpStrings
  import opened Wiki
  import opened Lookup

  /** What a link hook leaves in the link-text slot, and whether it put a display title there. */
  datatype LinkOutcome = LinkOutcome(html: LinkText, substituted: bool)

  /** The slot as it was, without a display title. */
  function Unchanged(html: LinkText): LinkOutcome {
    LinkOutcome(html, false)
  }

  // ---------------------------------------------------------------------
  // Fragments
  // ---------------------------------------------------------------------

  /** The fragment test applies to targets with a fragment that are not categories. */
  predicate FragmentApplies(target: Title) {
    target.fragment != "" && target.namespace != CategoryNamespace
  }

  /**
   Splits `text` at a trailing `#` + `fragmentName`: the part before it, or
   `None` when the text does not end that way or nothing precedes the suffix.
   */
  function TitlePart(text: string, fragmentName: string): (r: Option<string>)
    requires fragmentName != ""
    ensures r.Some? ==> r.value != "" && text == r.value + "#" + fragmentName
  {
    var fragment := "#" + fragmentName;
    var fragmentLength := |fragment|;
    var textTitle := if LastChars(text, fragmentLength) == fragment then DropLastChars(text, fragmentLength) else text;
    var textFragment := if LastChars(text, fragmentLength) == fragment then fragment[1..] else "";
    if textTitle == "" || textFragment == "" then None else Some(textTitle)
  }

  /** Every non-empty name followed by `#` + the fragment is split back into that name. */
  lemma {:induction false} TitlePartFinds(head: string, fragmentName: string)
    requires head != "" && fragmentName != ""
    ensures TitlePart(head + "#" + fragmentName, fragmentName) == Some(head)
  {
    var fragment := "#" + fragmentName;
    assert head + "#" + fragmentName == head + fragment;
    CutSuffix(head, fragment);
    LastCharsIsSuffixTest(head + fragment, fragment);
  }

  /** `TitlePart` finds a title part exactly when the text is a non-empty name followed by `#` + the fragment. */
  lemma TitlePartExactly(text: string, fragmentName: string, head: string)
    requires fragmentName != ""
    ensures TitlePart(text, fragmentName) == Some(head) <==> head != "" && text == head + "#" + fragmentName
  {
    if head != "" && text == head + "#" + fragmentName {
      TitlePartFinds(head, fragmentName);
    }
  }

  // ---------------------------------------------------------------------
  // The shared check
  // ---------------------------------------------------------------------

  /**
   The reference reading of "the label is just the target's name". For a
   target with a fragment (outside categories) the label is the prefixed or the
   bare title, non-empty, followed by `#` + the fragment; otherwise it is the
   prefixed text or `bareName`.
   */
  predicate NamesTarget(target: Title, text: string, bareName: string) {
    if FragmentApplies(target) then
      || (target.prefixedText != "" && text == target.prefixedText + "#" + target.fragment)
      || (target.text != "" && text == target.text + "#" + target.fragment)
    else
      text == target.prefixedText || text == bareName
  }

  /** Outcome of the customisation check: whether the label counts as written on purpose, and the slot after the check. */
  datatype Verdict = Verdict(customized: bool, html: LinkText)

  /**
   The customisation check on a normalised label `text`. With `wrap`, a label
   cut at its fragment is put back into the slot without the fragment, even when
   the label then counts as customised.
   */
  function CheckLabel(target: Title, html: LinkText, text: string, wrap: bool, bareName: string): (v: Verdict)
    ensures !v.customized <==> NamesTarget(target, text, bareName)
    ensures !wrap ==> v.html == html
    ensures v.html != html ==>
      wrap && FragmentApplies(target) && v.html.Armored? && v.html.html + "#" + target.fragment == text
    // with `wrap`, a label that splits at its fragment is put back cut, whether or not it counts as customised
    ensures wrap && FragmentApplies(target) && TitlePart(text, target.fragment).Some? ==>
      v.html == Armored(TitlePart(text, target.fragment).value)
    ensures !(wrap && FragmentApplies(target) && TitlePart(text, target.fragment).Some?) ==> v.html == html
  {
    if FragmentApplies(target) then
      match TitlePart(text, target.fragment)
      case None =>
        TitlePartExactly(text, target.fragment, target.prefixedText);
        TitlePartExactly(text, target.fragment, target.text);
        Verdict(true, html)
      case Some(textTitle) =>
        TitlePartExactly(text, target.fragment, target.prefixedText);
        TitlePartExactly(text, target.fragment, target.text);
        Verdict(textTitle != target.prefixedText && textTitle != target.text,
                if wrap then Armored(textTitle) else html)
    else
      Verdict(text != target.prefixedText && text != bareName, html)
  }

  // ---------------------------------------------------------------------
  // The service's handleLink
  // ---------------------------------------------------------------------

  /**
   The service's normalisation of the slot: underscores to spaces for strings,
   the decimal rendering for integers, tags stripped and then underscores
   replaced for armored HTML.
   */
  function ServiceText(html: LinkText): (text: string)
    requires !html.Unset?
    ensures html.Str? ==> |text| == |html.s| && '_' !in text
    ensures html.Str? ==> forall i :: 0 <= i < |text| ==> text[i] == (if html.s[i] == '_' then ' ' else html.s[i])
    ensures html.Int? ==> ParseDecimal(text) == Some(html.i)
    ensures html.Int? ==> text == IntToDecimal(html.i)
    ensures html.Armored? ==> '<' !in text && '_' !in text
    ensures html.Armored? ==> |text| == |StripTags(html.html)|
    ensures html.Armored? ==>
      forall i :: 0 <= i < |text| ==> text[i] == (if StripTags(html.html)[i] == '_' then ' ' else StripTags(html.html)[i])
  {
    match html
    case Str(s) => UnderscoresToSpaces(s)
    case Int(i) => IntToDecimalRoundTrip(i); IntToDecimal(i)
    case Armored(h) =>
      var stripped := StripTags(h);
      var text := UnderscoresToSpaces(stripped);
      assert '<' !in text by {
        forall i | 0 <= i < |text|
          ensures text[i] != '<'
        {
          assert text[i] == ' ' || text[i] == stripped[i];
        }
      }
      text
  }

  /** The service's check: an unset slot counts as not customised; otherwise the shared check with the subpage text as bare name. */
  function ServiceCheck(target: Title, html: LinkText, wrap: bool): Verdict {
    if html.Unset? then Verdict(false, html)
    else CheckLabel(target, html, ServiceText(html), wrap, target.subpageText)
  }

  /** The current page is a redirect and the link points at the current page's own name. */
  predicate RedirectLinksToItself(site: Site, current: Title, pageTitle: string, target: Title) {
    current.canExist && RedirectOf(site, current).Some? && pageTitle == target.prefixedText
  }

  /**
   The service's `handleLink` for a link on the page named `pageTitle`. A
   page name that is not excluded must parse: the source dereferences the
   parsed title without checking it.
   */
  function HandleLink(site: Site, config: Config, pageTitle: string, target: Title, html: LinkText, wrap: bool): (r: LinkOutcome)
    requires pageTitle !in config.excludes ==> NewFromText(site, pageTitle).Some?
    // excluded pages keep all their links as they are
    ensures pageTitle in config.excludes ==> r == Unchanged(html)
    // a redirect page keeps the link to its own name as it is
    ensures pageTitle !in config.excludes && RedirectLinksToItself(site, NewFromText(site, pageTitle).value, pageTitle, target) ==>
      r == Unchanged(html)
    // a link without text is never given a display title
    ensures html.Unset? ==> r == Unchanged(html)
    // a display title is put in exactly when the label names the target and the target has one
    ensures r.substituted <==>
      && pageTitle !in config.excludes
      && !RedirectLinksToItself(site, NewFromText(site, pageTitle).value, pageTitle, target)
      && !html.Unset?
      && NamesTarget(target, ServiceText(html), target.subpageText)
      && GetDisplayTitle(site, config.followRedirects, target).Some?
    ensures r.substituted ==> r.html == Wrapped(GetDisplayTitle(site, config.followRedirects, target).value, wrap)
    // otherwise the slot is untouched, except that a wrapped label loses a trailing fragment
    ensures !r.substituted && r.html != html ==>
      wrap && !html.Unset? && FragmentApplies(target) && r.html.Armored? && r.html.html != "" &&
      r.html.html + "#" + target.fragment == ServiceText(html)
    // a label that splits at its fragment is left cut under `wrap`, even when it is kept as customised
    ensures
      && !r.substituted
      && pageTitle !in config.excludes
      && !RedirectLinksToItself(site, NewFromText(site, pageTitle).value, pageTitle, target)
      && !html.Unset? && wrap && FragmentApplies(target)
      && TitlePart(ServiceText(html), target.fragment).Some? ==>
        r.html == Armored(TitlePart(ServiceText(html), target.fragment).value)
  {
    if pageTitle in config.excludes then Unchanged(html)
    else
      var current := NewFromText(site, pageTitle).value;
      if current.canExist && RedirectOf(site, current).Some? && pageTitle == target.prefixedText then Unchanged(html)
      else
        var verdict := ServiceCheck(target, html, wrap);
        if !verdict.customized && !verdict.html.Unset? then
          match GetDisplayTitle(site, config.followRedirects, target)
          case Some(displaytitle) => LinkOutcome(Wrapped(displaytitle, wrap), true)
          case None => Unchanged(verdict.html)
        else Unchanged(verdict.html)
  }

  // ---------------------------------------------------------------------
  // The hook class's handleLink and link hooks
  // ---------------------------------------------------------------------

  /** The hook class's normalisation: as the service's, but armored HTML keeps its tags. */
  function HooksText(html: LinkText): (text: string)
    requires !html.Unset?
    ensures html.Str? ==> |text| == |html.s| && '_' !in text
    ensures html.Int? ==> ParseDecimal(text) == Some(html.i)
    ensures html.Int? ==> text == IntToDecimal(html.i)
    ensures html.Armored? ==> |text| == |html.html| && '_' !in text
    ensures html.Str? ==> forall i :: 0 <= i < |text| ==> text[i] == (if html.s[i] == '_' then ' ' else html.s[i])
    ensures html.Armored? ==> forall i :: 0 <= i < |text| ==> text[i] == (if html.html[i] == '_' then ' ' else html.html[i])
  {
    match html
    case Str(s) => UnderscoresToSpaces(s)
    case Int(i) => IntToDecimalRoundTrip(i); IntToDecimal(i)
    case Armored(h) => UnderscoresToSpaces(h)
  }

  /** The hook class's check: the bare name is `getText` in both branches. */
  function HooksCheck(target: Title, html: LinkText, wrap: bool): Verdict {
    if html.Unset? then Verdict(false, html)
    else CheckLabel(target, html, HooksText(html), wrap, target.text)
  }

  /** The hook class's `handleLink`: no exclusion or redirect test, and an unset slot is looked up too. */
  function HooksHandleLink(site: Site, followRedirects: bool, target: Title, html: LinkText, wrap: bool): (r: LinkOutcome)
    // a display title is put in exactly when the slot is unset or names the target, and the target has one
    ensures r.substituted <==>
      (html.Unset? || NamesTarget(target, HooksText(html), target.text)) &&
      GetDisplayTitle(site, followRedirects, target).Some?
    ensures r.substituted ==> r.html == Wrapped(GetDisplayTitle(site, followRedirects, target).value, wrap)
    ensures !r.substituted && r.html != html ==>
      wrap && !html.Unset? && FragmentApplies(target) && r.html.Armored? && r.html.html != "" &&
      r.html.html + "#" + target.fragment == HooksText(html)
    // a label that splits at its fragment is left cut under `wrap`, even when it is kept as customised
    ensures !r.substituted && !html.Unset? && wrap && FragmentApplies(target) && TitlePart(HooksText(html), target.fragment).Some? ==>
      r.html == Armored(TitlePart(HooksText(html), target.fragment).value)
  {
    var verdict := HooksCheck(target, html, wrap);
    if !verdict.customized then
      match GetDisplayTitle(site, followRedirects, target)
      case Some(displaytitle) => LinkOutcome(Wrapped(displaytitle, wrap), true)
      case None => Unchanged(verdict.html)
    else Unchanged(verdict.html)
  }

  /**
   `in_array($title, $wgDisplayTitleExcludes)` for the request's `title`
   parameter; a missing parameter (`null`) loosely equals only the empty name.
   */
  predicate RequestExcluded(requestTitle: Option<string>, excludes: seq<string>) {
    match requestTitle
    case Some(name) => name in excludes
    case None => "" in excludes
  }

  /** `onHtmlPageLinkRendererBegin`: links to other pages, results wrapped as HTML. */
  function OnHtmlPageLinkRendererBegin(site: Site, config: Config, requestTitle: Option<string>, target: Title, text: LinkText): (r: LinkOutcome)
    ensures RequestExcluded(requestTitle, config.excludes) ==> r == Unchanged(text)
    ensures r.substituted <==>
      && !RequestExcluded(requestTitle, config.excludes)
      && (text.Unset? || NamesTarget(target, HooksText(text), target.text))
      && GetDisplayTitle(site, config.followRedirects, target).Some?
    ensures r.substituted ==> r.html == Armored(GetDisplayTitle(site, config.followRedirects, target).value)
    // otherwise the text is left as it is, except that a label ending in `#` + the fragment loses that ending
    ensures !r.substituted && r.html != text ==>
      && !RequestExcluded(requestTitle, config.excludes) && !text.Unset? && FragmentApplies(target)
      && r.html.Armored? && r.html.html != "" && r.html.html + "#" + target.fragment == HooksText(text)
    ensures
      && !r.substituted && !RequestExcluded(requestTitle, config.excludes) && !text.Unset? && FragmentApplies(target)
      && TitlePart(HooksText(text), target.fragment).Some? ==>
        r.html == Armored(TitlePart(HooksText(text), target.fragment).value)
  {
    if RequestExcluded(requestTitle, config.excludes) then Unchanged(text)
    else HooksHandleLink(site, config.followRedirects, target, text, true)
  }

  /** `onSelfLinkBegin`: links to the current page, results left as plain strings. */
  function OnSelfLinkBegin(site: Site, config: Config, requestTitle: Option<string>, nt: Title, html: LinkText): (r: LinkOutcome)
    ensures RequestExcluded(requestTitle, config.excludes) ==> r == Unchanged(html)
    ensures r.substituted <==>
      && !RequestExcluded(requestTitle, config.excludes)
      && (html.Unset? || NamesTarget(nt, HooksText(html), nt.text))
      && GetDisplayTitle(site, config.followRedirects, nt).Some?
    ensures r.substituted ==> r.html == Str(GetDisplayTitle(site, config.followRedirects, nt).value)
    // a self-link keeps its slot exactly unless a display title is put in
    ensures !r.substituted ==> r.html == html
  {
    if RequestExcluded(requestTitle, config.excludes) then Unchanged(html)
    else HooksHandleLink(site, config.followRedirects, nt, html, false)
  }

  // ---------------------------------------------------------------------
  // The legacy link hooks
  // ---------------------------------------------------------------------

  /**
   The legacy test on a string label: it parses to a title with the target's
   text, in the target's subject namespace or in none.
   */
  predicate LegacyLabelMatches(site: Site, target: Title, labelText: string) {
    var parsed := NewFromText(site, labelText);
    && parsed.Some?
    && parsed.value.text == target.text
    && (parsed.value.subjectNsText == target.subjectNsText || parsed.value.subjectNsText == "")
  }

  /** The legacy `onLinkBegin`: string labels must pass the parse test, any other slot is always looked up. */
  function LegacyOnLinkBegin(site: Site, target: Title, html: LinkText): (r: LinkOutcome)
    ensures r.substituted <==>
      (!html.Str? || LegacyLabelMatches(site, target, html.s)) && LegacyGetDisplayTitle(site, target).Some?
    ensures r.substituted ==> r.html == Str(LegacyGetDisplayTitle(site, target).value)
    ensures !r.substituted ==> r.html == html
  {
    if html.Str? then
      if LegacyLabelMatches(site, target, html.s) then LegacySubstitute(site, target, html) else Unchanged(html)
    else LegacySubstitute(site, target, html)
  }

  /** The legacy `onSelfLinkBegin`: every self-link is looked up, whatever its label. */
  function LegacyOnSelfLinkBegin(site: Site, nt: Title, html: LinkText): (r: LinkOutcome)
    ensures r.substituted <==> LegacyGetDisplayTitle(site, nt).Some?
    ensures r.substituted ==> r.html == Str(LegacyGetDisplayTitle(site, nt).value)
    ensures !r.substituted ==> r.html == html
  {
    LegacySubstitute(site, nt, html)
  }

  /** The slot after a legacy lookup: the display title as a plain string when there is one. */
  function LegacySubstitute(site: Site, target: Title, html: LinkText): LinkOutcome {
    match LegacyGetDisplayTitle(site, target)
    case Some(displaytitle) => LinkOutcome(Str(displaytitle), true)
    case None => Unchanged(html)
  }

  // ---------------------------------------------------------------------
  // How the variants relate
  // ---------------------------------------------------------------------

  /**
   A plain label that, after underscores become spaces, is none of the
   target's names is kept by the service and by the link renderer hook alike.
   */
  lemma CustomLabelKept(site: Site, config: Config, pageTitle: string, requestTitle: Option<string>, target: Title, labelText: string)
    requires pageTitle !in config.excludes ==> NewFromText(site, pageTitle).Some?
    requires !FragmentApplies(target)
    requires UnderscoresToSpaces(labelText) !in {target.prefixedText, target.subpageText, target.text}
    ensures HandleLink(site, config, pageTitle, target, Str(labelText), true) == Unchanged(Str(labelText))
    ensures OnHtmlPageLinkRendererBegin(site, config, requestTitle, target, Str(labelText)) == Unchanged(Str(labelText))
  {
  }

  /**
   A plain label that is exactly the target's prefixed name (and has no
   underscores) gets the target's display title from the link renderer hook,
   and is kept when the target has none.
   */
  lemma NameLabelRendered(site: Site, config: Config, requestTitle: Option<string>, target: Title)
    requires !RequestExcluded(requestTitle, config.excludes)
    requires !FragmentApplies(target)
    requires '_' !in target.prefixedText
    ensures
      var r := OnHtmlPageLinkRendererBegin(site, config, requestTitle, target, Str(target.prefixedText));
      match GetDisplayTitle(site, config.followRedirects, target)
      case Some(d) => r == LinkOutcome(Armored(d), true)
      case None => r == Unchanged(Str(target.prefixedText))
  {
    UnderscoreFreeUnchanged(target.prefixedText);
  }

  /**
   A link without text: the service never looks it up, the hook class looks
   it up and puts in the display title when there is one.
   */
  lemma UnsetSlotVariants(site: Site, config: Config, pageTitle: string, target: Title, wrap: bool)
    requires pageTitle !in config.excludes ==> NewFromText(site, pageTitle).Some?
    ensures HandleLink(site, config, pageTitle, target, Unset, wrap) == Unchanged(Unset)
    ensures HooksHandleLink(site, config.followRedirects, target, Unset, wrap).substituted <==>
      GetDisplayTitle(site, config.followRedirects, target).Some?
  {
  }

  /**
   Search-result highlighting: an armored label that is the target's name
   wrapped in an opening and a closing tag is the target's name to the
   service, which strips tags, and a customised label to the hook class, which
   does not.
   */
  lemma {:induction false} HighlightedLabelVariants(site: Site, config: Config, pageTitle: string, target: Title, openTag: string, closeTag: string)
    requires NewFromText(site, pageTitle).Some?
    requires pageTitle !in config.excludes
    requires !RedirectLinksToItself(site, NewFromText(site, pageTitle).value, pageTitle, target)
    requires !FragmentApplies(target)
    requires '_' !in target.prefixedText && '<' !in target.prefixedText && '<' !in target.text
    requires '>' !in openTag && '>' !in closeTag
    requires GetDisplayTitle(site, config.followRedirects, target).Some?
    ensures
      var slot := Armored("<" + openTag + ">" + target.prefixedText + "<" + closeTag + ">");
      && HandleLink(site, config, pageTitle, target, slot, true).substituted
      && !HooksHandleLink(site, config.followRedirects, target, slot, true).substituted
  {
    var h := "<" + openTag + ">" + target.prefixedText + "<" + closeTag + ">";
    StripTagsSurrounded(openTag, target.prefixedText, closeTag);
    UnderscoreFreeUnchanged(target.prefixedText);
    assert ServiceText(Armored(h)) == target.prefixedText;
    var hooksText := HooksText(Armored(h));
    assert hooksText[0] == '<' by {
      assert h[0] == '<';
    }
    assert hooksText != target.prefixedText && hooksText != target.text by {
      assert hooksText[0] in hooksText;
    }
  }

  /**
   Where the target re-parses to itself and redirects are not followed, the
   legacy `onLinkBegin` and the hook class's check (without `wrap`, as the
   legacy hook writes plain strings) treat a link without text alike.
   */
  lemma LegacyUnsetLinkAgrees(site: Site, target: Title)
    requires Reparses(site, target)
    ensures LegacyOnLinkBegin(site, target, Unset) == HooksHandleLink(site, false, target, Unset, false)
  {
    LegacyAgreesWithoutRedirects(site, target);
  }

  /** The same for a plain label that is the target's prefixed name. */
  lemma LegacyNameLinkAgrees(site: Site, target: Title)
    requires Reparses(site, target)
    requires !FragmentApplies(target)
    requires '_' !in target.prefixedText
    ensures LegacyOnLinkBegin(site, target, Str(target.prefixedText)) == HooksHandleLink(site, false, target, Str(target.prefixedText), false)
  {
    LegacyAgreesWithoutRedirects(site, target);
    UnderscoreFreeUnchanged(target.prefixedText);
    assert LegacyLabelMatches(site, target, target.prefixedText);
  }

  /**
   Where the page re-parses to itself and redirects are not followed, a
   self-link that is unset or names the page gets the same outcome from the
   legacy and the current `onSelfLinkBegin`.
   */
  lemma LegacySelfLinkAgrees(site: Site, config: Config, requestTitle: Option<string>, nt: Title, html: LinkText)
    requires !config.followRedirects
    requires Reparses(site, nt)
    requires !RequestExcluded(requestTitle, config.excludes)
    requires html.Unset? || NamesTarget(nt, HooksText(html), nt.text)
    ensures LegacyOnSelfLinkBegin(site, nt, html) == OnSelfLinkBegin(site, config, requestTitle, nt, html)
  {
    LegacyAgreesWithoutRedirects(site, nt);
  }

  /** A customised self-link is kept by the current hook but replaced by the legacy one. */
  lemma CustomSelfLinkVariants(site: Site, config: Config, requestTitle: Option<string>, nt: Title, html: LinkText)
    requires !html.Unset? && !NamesTarget(nt, HooksText(html), nt.text)
    requires LegacyGetDisplayTitle(site, nt).Some?
    ensures LegacyOnSelfLinkBegin(site, nt, html).substituted
    ensures OnSelfLinkBegin(site, config, requestTitle, nt, html) == Unchanged(html)
  {
  }

  /**
   Links from a category-free target with a fragment: the label with the
   fragment is the target's name, but with `wrap` the slot keeps only the title
   part when the target has no display title.
   */
  lemma {:induction false} FragmentLabelCut(site: Site, config: Config, requestTitle: Option<string>, target: Title)
    requires FragmentApplies(target)
    requires target.prefixedText != "" && '_' !in target.prefixedText && '_' !in target.fragment
    requires !RequestExcluded(requestTitle, config.excludes)
    requires GetDisplayTitle(site, config.followRedirects, target).None?
    ensures OnHtmlPageLinkRendererBegin(site, config, requestTitle, target, Str(target.prefixedText + "#" + target.fragment))
      == Unchanged(Armored(target.prefixedText))
  {
    var text := target.prefixedText + "#" + target.fragment;
    assert '_' !in text by {
      forall i | 0 <= i < |text|
        ensures text[i] != '_'
      {
        if i < |target.prefixedText| {
          assert text[i] == target.prefixedText[i];
        } else if i > |target.prefixedText| {
          assert text[i] == target.fragment[i - |target.prefixedText| - 1];
        }
      }
    }
    UnderscoreFreeUnchanged(text);
    TitlePartFinds(target.prefixedText, target.fragment);
  }
}

=== FILE: lookup.dfy ===
/**
 The display-title lookup (`getDisplayTitle`): which text, if any, a page is
 shown under. The service class and the hook class share one procedure, which
 may follow one redirect hop; the legacy hook class has its own, older one.
 */
module Lookup {
  import opened Wrappers
  import opened PhpStrings
  import opened Wiki

  /** A property value is blank when nothing but whitespace is left after removing tags and `&#160;`. */
  predicate IsBlank(value: string) {
    Trim(RemoveNbspEntities(StripTags(value))) == ""
  }

  /** A property value is shown for a page named `originalName` when it is not blank and not that name. */
  predicate Acceptable(value: string, originalName: string) {
    !IsBlank(value) && value != originalName
  }

  /** Blankness is a property of the characters that survive the clean-up: all of them are trimmable. */
  lemma BlankMeansOnlyTrimmable(value: string)
    ensures IsBlank(value) <==> forall c :: c in RemoveNbspEntities(StripTags(value)) ==> IsTrimmable(c)
  {
    var cleaned := RemoveNbspEntities(StripTags(value));
    if forall c :: c in cleaned ==> IsTrimmable(c) {
      assert forall i :: 0 <= i < |cleaned| ==> IsTrimmable(cleaned[i]);
    }
  }

  /** For a value without markup or entities, blank means whitespace only. */
  lemma PlainBlankIsWhitespace(value: string)
    requires '<' !in value && '&' !in value
    ensures IsBlank(value) <==> forall i :: 0 <= i < |value| ==> IsTrimmable(value[i])
  {
  }

  /** The page whose property is read, and whether a redirect was followed to reach it. */
  datatype Resolved = Resolved(page: Title, redirected: bool)

  /** One redirect hop from `page` when redirects are followed and `page` is a redirect. */
  function ResolvePage(site: Site, followRedirects: bool, page: Title): (r: Resolved)
    ensures r.redirected <==> followRedirects && RedirectOf(site, page).Some?
    ensures r.redirected ==> r.page == RedirectOf(site, page).value
    ensures !r.redirected ==> r.page == page
  {
    if followRedirects && RedirectOf(site, page).Some? then Resolved(RedirectOf(site, page).value, true)
    else Resolved(page, false)
  }

  /** The page consulted for the property of `title`: its fragment-free form, after at most one redirect hop. */
  function PropertyPage(site: Site, followRedirects: bool, title: Title): Resolved {
    ResolvePage(site, followRedirects, title.WithoutFragment())
  }

  /**
   `getDisplayTitle`: `Some(text)` when the method returns true with
   `$displaytitle` set to `text`, `None` when it returns false and leaves it alone.
   */
  function GetDisplayTitle(site: Site, followRedirects: bool, title: Title): (r: Option<string>)
    // pages that cannot exist never have a display title
    ensures !title.canExist ==> r.None?
    // what is shown is either an acceptable property of the consulted page or the redirect target's name
    ensures r.Some? ==>
      var dest := PropertyPage(site, followRedirects, title);
      || (DisplayTitleProperty(site, dest.page) == Some(r.value) && Acceptable(r.value, title.prefixedText))
      || (DisplayTitleProperty(site, dest.page).None? && dest.redirected && r.value == dest.page.prefixedText)
    // an acceptable property is always shown
    ensures title.canExist ==>
      var dest := PropertyPage(site, followRedirects, title);
      var prop := DisplayTitleProperty(site, dest.page);
      prop.Some? && Acceptable(prop.value, title.prefixedText) ==> r == prop
    // a property that is present but rejected never falls back to the redirect target's name
    ensures
      var dest := PropertyPage(site, followRedirects, title);
      var prop := DisplayTitleProperty(site, dest.page);
      prop.Some? && !Acceptable(prop.value, title.prefixedText) ==> r.None?
    // without a property, only a followed redirect yields a name
    ensures title.canExist ==>
      var dest := PropertyPage(site, followRedirects, title);
      DisplayTitleProperty(site, dest.page).None? ==> (r.Some? <==> dest.redirected)
  {
    var page := title.WithoutFragment();
    if !page.canExist then None
    else
      var originalPageName := page.prefixedText;
      var dest := ResolvePage(site, followRedirects, page);
      match DisplayTitleProperty(site, dest.page)
      case Some(value) =>
        if !IsBlank(value) && value != originalPageName then Some(value) else None
      case None =>
        if dest.redirected then Some(dest.page.prefixedText) else None
  }

  /** With redirect following off, the redirect table plays no part in the lookup. */
  lemma NotFollowingIgnoresRedirects(site: Site, title: Title, redirects: map<string, Title>)
    ensures GetDisplayTitle(site, false, title) == GetDisplayTitle(site.(redirects := redirects), false, title)
  {
  }

  /**
   A redirect R to a page T whose display title V is acceptable for R shows V
   when redirects are followed; when they are not, R's own (absent) property
   leaves R without a display title.
   */
  lemma RedirectShowsTargetDisplayTitle(site: Site, r: Title, t: Title, v: string)
    requires r.canExist
    requires RedirectOf(site, r) == Some(t)
    requires DisplayTitleProperty(site, t) == Some(v) && Acceptable(v, r.prefixedText)
    requires DisplayTitleProperty(site, r).None?
    ensures GetDisplayTitle(site, true, r) == Some(v)
    ensures GetDisplayTitle(site, false, r).None?
  {
  }

  /** A redirect to a page without a display title shows the target's name when redirects are followed. */
  lemma RedirectWithoutDisplayTitleShowsTargetName(site: Site, r: Title, t: Title)
    requires r.canExist
    requires RedirectOf(site, r) == Some(t)
    requires DisplayTitleProperty(site, t).None?
    ensures GetDisplayTitle(site, true, r) == Some(t.prefixedText)
  {
  }

  // ---------------------------------------------------------------------
  // The legacy lookup
  // ---------------------------------------------------------------------

  /**
   The legacy `getDisplayTitle`: drops the fragment by parsing the prefixed
   text again, never follows redirects and does not ask whether the page can
   exist.
   */
  function LegacyGetDisplayTitle(site: Site, title: Title): (r: Option<string>)
    // a name that no longer parses has no display title
    ensures NewFromText(site, title.prefixedText).None? ==> r.None?
    // what is shown is an acceptable property of the re-parsed page
    ensures r.Some? ==>
      && NewFromText(site, title.prefixedText).Some?
      && DisplayTitleProperty(site, NewFromText(site, title.prefixedText).value) == Some(r.value)
      && Acceptable(r.value, title.prefixedText)
    // and every acceptable property is shown
    ensures
      var parsed := NewFromText(site, title.prefixedText);
      parsed.Some? && DisplayTitleProperty(site, parsed.value).Some? &&
      Acceptable(DisplayTitleProperty(site, parsed.value).value, title.prefixedText) ==>
        r == DisplayTitleProperty(site, parsed.value)
  {
    var pagetitle := title.prefixedText;
    match NewFromText(site, pagetitle)
    case None => None
    case Some(page) =>
      match DisplayTitleProperty(site, page)
      case Some(value) => if !IsBlank(value) && value != pagetitle then Some(value) else None
      case None => None
  }

  /** The page can exist, and parsing its prefixed text gives back the same page without its fragment. */
  predicate Reparses(site: Site, title: Title) {
    title.canExist && NewFromText(site, title.prefixedText) == Some(title.WithoutFragment())
  }

  /**
   Where a page re-parses to itself, the legacy lookup agrees with the current
   one run with redirect following switched off.
   */
  lemma LegacyAgreesWithoutRedirects(site: Site, title: Title)
    requires Reparses(site, title)
    ensures LegacyGetDisplayTitle(site, title) == GetDisplayTitle(site, false, title)
  {
  }
}

=== FILE: pages.dfy ===
/**
 The page-level decisions built on the lookup: the subtitle under a page's
 heading, the heading of a talk page, the `#getdisplaytitle` parser function
 and the user-page entries of the personal navigation.
 */
module Pages {
  import opened Wrappers
  import opened PhpStrings
  import opened Wiki
  import opened Lookup

  /**
   The display title behind a viewed page's heading: the page's own, or for a
   talk page that of its subject page, provided the subject page exists.
   */
  function HeadingDisplayTitle(site: Site, followRedirects: bool, title: Title): Option<string> {
    if !title.IsTalkPage() then GetDisplayTitle(site, followRedirects, title)
    else if title.subject.value.Exists() then GetDisplayTitle(site, followRedirects, title.subject.value)
    else None
  }

  /** The same choice made with the legacy lookup. */
  function LegacyHeadingDisplayTitle(site: Site, title: Title): Option<string> {
    if !title.IsTalkPage() then LegacyGetDisplayTitle(site, title)
    else if title.subject.value.Exists() then LegacyGetDisplayTitle(site, title.subject.value)
    else None
  }

  // ---------------------------------------------------------------------
  // Subtitles
  // ---------------------------------------------------------------------

  /** The subtitle's markup: an opening and a closing `span` tag around the page name. */
  const SubtitleOpenTag: string := "span class=\"mw-displaytitle-subtitle\""
  const SubtitleCloseTag: string := "/span"
  const SubtitleOpen: string := "<" + SubtitleOpenTag + ">"
  const SubtitleClose: string := "<" + SubtitleCloseTag + ">"

  /**
   The service's `setSubtitle`: the subtitle line it adds, `None` when it adds
   nothing. The line shows the viewed page's real name.
   */
  function SetSubtitle(site: Site, config: Config, title: Title): (r: Option<string>)
    ensures config.hideSubtitle ==> r.None?
    ensures title.IsTalkPage() && !title.subject.value.Exists() ==> r.None?
    ensures !title.IsTalkPage() ==>
      (r.Some? <==> !config.hideSubtitle && GetDisplayTitle(site, config.followRedirects, title).Some?)
    ensures title.IsTalkPage() && title.subject.value.Exists() ==>
      (r.Some? <==> !config.hideSubtitle && GetDisplayTitle(site, config.followRedirects, title.subject.value).Some?)
    ensures r.Some? ==> r.value == SubtitleOpen + title.prefixedText + SubtitleClose
  {
    if config.hideSubtitle then None
    else if HeadingDisplayTitle(site, config.followRedirects, title).Some? then
      Some(SubtitleOpen + title.prefixedText + SubtitleClose)
    else None
  }

  /** With its markup removed, the service's subtitle line is exactly the viewed page's real name. */
  lemma {:induction false} SubtitleShowsRealName(site: Site, config: Config, title: Title)
    requires '<' !in title.prefixedText
    requires SetSubtitle(site, config, title).Some?
    ensures StripTags(SetSubtitle(site, config, title).value) == title.prefixedText
  {
    var name := title.prefixedText;
    SpanMarkupStripped(name);
  }

  /** Stripping the span around a name without markup leaves the name. */
  lemma {:induction false} SpanMarkupStripped(name: string)
    requires '<' !in name
    ensures StripTags(SubtitleOpen + name + SubtitleClose) == name
  {
    assert SubtitleOpen + name + SubtitleClose == "<" + SubtitleOpenTag + ">" + name + "<" + SubtitleCloseTag + ">";
    assert '>' !in SubtitleOpenTag && '>' !in SubtitleCloseTag;
    StripTagsSurrounded(SubtitleOpenTag, name, SubtitleCloseTag);
  }

  /** The hook classes' subtitle: the page name, then ` / ` and the old subtitle when there is one. */
  function JoinSubtitle(name: string, previous: string): (r: string)
    ensures previous == "" ==> r == name
    ensures previous != "" ==> |r| == |name| + 3 + |previous| && r[..|name|] == name && r[|name|..|name| + 3] == " / " && r[|name| + 3..] == previous
  {
    if previous != "" then name + " / " + previous else name
  }

  /** The hook class's `onBeforePageDisplay`: the new subtitle, `None` when the subtitle is left alone. */
  function OnBeforePageDisplay(site: Site, config: Config, title: Title, oldSubtitle: string): (r: Option<string>)
    ensures config.hideSubtitle ==> r.None?
    ensures title.IsTalkPage() && !title.subject.value.Exists() ==> r.None?
    ensures r.Some? <==> !config.hideSubtitle && HeadingDisplayTitle(site, config.followRedirects, title).Some?
    ensures r.Some? ==> r.value == JoinSubtitle(title.prefixedText, oldSubtitle)
  {
    if config.hideSubtitle then None
    else if HeadingDisplayTitle(site, config.followRedirects, title).Some? then
      Some(JoinSubtitle(title.prefixedText, oldSubtitle))
    else None
  }

  /**
   The legacy `onBeforePageDisplay`. For a talk page whose subject page does
   not exist its `$found` is never assigned, which PHP reads as false.
   */
  function LegacyOnBeforePageDisplay(site: Site, hideSubtitle: bool, title: Title, oldSubtitle: string): (r: Option<string>)
    ensures hideSubtitle ==> r.None?
    ensures title.IsTalkPage() && !title.subject.value.Exists() ==> r.None?
    ensures r.Some? <==> !hideSubtitle && LegacyHeadingDisplayTitle(site, title).Some?
    ensures r.Some? ==> r.value == JoinSubtitle(title.prefixedText, oldSubtitle)
  {
    if hideSubtitle then None
    else if LegacyHeadingDisplayTitle(site, title).Some? then
      Some(JoinSubtitle(title.prefixedText, oldSubtitle))
    else None
  }

  /**
   Where the page behind the heading re-parses to itself and redirects are not
   followed, the legacy and the current `onBeforePageDisplay` set the same
   subtitle.
   */
  lemma LegacySubtitleAgrees(site: Site, config: Config, title: Title, oldSubtitle: string)
    requires !config.followRedirects
    requires Reparses(site, if title.IsTalkPage() then title.subject.value else title)
    ensures LegacyOnBeforePageDisplay(site, config.hideSubtitle, title, oldSubtitle) == OnBeforePageDisplay(site, config, title, oldSubtitle)
  {
    LegacyAgreesWithoutRedirects(site, if title.IsTalkPage() then title.subject.value else title);
  }

  // ---------------------------------------------------------------------
  // Talk page headings
  // ---------------------------------------------------------------------

  /**
   The hook class's `onOutputPageParserOutput`: the subject page's display
   title handed to the `displaytitle-talkpagetitle` message, `None` when the
   heading is left alone.
   */
  function OnOutputPageParserOutput(site: Site, followRedirects: bool, title: Option<Title>): (r: Option<string>)
    ensures r.Some? <==>
      && title.Some? && title.value.IsTalkPage() && title.value.subject.value.Exists()
      && GetDisplayTitle(site, followRedirects, title.value.subject.value).Some?
    ensures r.Some? ==> r == GetDisplayTitle(site, followRedirects, title.value.subject.value)
  {
    if title.Some? && title.value.IsTalkPage() && title.value.subject.value.Exists() then
      GetDisplayTitle(site, followRedirects, title.value.subject.value)
    else None
  }

  /** The legacy `onParserBeforeStrip`: the same decision with the legacy lookup. */
  function LegacyOnParserBeforeStrip(site: Site, title: Title): (r: Option<string>)
    ensures r.Some? <==>
      title.IsTalkPage() && title.subject.value.Exists() && LegacyGetDisplayTitle(site, title.subject.value).Some?
    ensures r.Some? ==> r == LegacyGetDisplayTitle(site, title.subject.value)
  {
    if title.IsTalkPage() && title.subject.value.Exists() then LegacyGetDisplayTitle(site, title.subject.value)
    else None
  }

  /**
   A talk page whose heading takes its subject page's display title also gets
   the subtitle naming the talk page, unless subtitles are hidden.
   */
  lemma TalkHeadingComesWithSubtitle(site: Site, config: Config, title: Title, oldSubtitle: string)
    requires OnOutputPageParserOutput(site, config.followRedirects, Some(title)).Some?
    ensures OnBeforePageDisplay(site, config, title, oldSubtitle).Some? <==> !config.hideSubtitle
  {
  }

  /**
   Where a talk page's subject page re-parses to itself, the legacy
   `onParserBeforeStrip` and the current `onOutputPageParserOutput` with
   redirects not followed give the same heading.
   */
  lemma LegacyTalkHeadingAgrees(site: Site, title: Title)
    requires title.IsTalkPage() ==> Reparses(site, title.subject.value)
    ensures LegacyOnParserBeforeStrip(site, title) == OnOutputPageParserOutput(site, false, Some(title))
  {
    if title.IsTalkPage() {
      LegacyAgreesWithoutRedirects(site, title.subject.value);
    }
  }

  // ---------------------------------------------------------------------
  // #getdisplaytitle and the personal navigation
  // ---------------------------------------------------------------------

  /** The hook class's `getdisplaytitleParserFunction`. */
  function GetDisplayTitleParserFunction(site: Site, followRedirects: bool, pagename: string): (r: string)
    ensures NewFromText(site, pagename).None? ==> r == pagename
    ensures NewFromText(site, pagename).Some? ==>
      var found := GetDisplayTitle(site, followRedirects, NewFromText(site, pagename).value);
      (found.None? ==> r == pagename) && (found.Some? ==> r == found.value)
  {
    match NewFromText(site, pagename)
    case None => pagename
    case Some(title) => GetDisplayTitle(site, followRedirects, title).GetOr(pagename)
  }

  /** The legacy `getdisplaytitleParserFunction`. */
  function LegacyGetDisplayTitleParserFunction(site: Site, pagename: string): (r: string)
    ensures NewFromText(site, pagename).None? ==> r == pagename
    ensures NewFromText(site, pagename).Some? ==>
      var found := LegacyGetDisplayTitle(site, NewFromText(site, pagename).value);
      (found.None? ==> r == pagename) && (found.Some? ==> r == found.value)
  {
    match NewFromText(site, pagename)
    case None => pagename
    case Some(title) => LegacyGetDisplayTitle(site, title).GetOr(pagename)
  }

  /**
   Where the name parses to a page that re-parses to itself, the legacy and the
   current parser function (redirects not followed) return the same text.
   */
  lemma LegacyParserFunctionAgrees(site: Site, pagename: string)
    requires NewFromText(site, pagename).Some? ==> Reparses(site, NewFromText(site, pagename).value)
    ensures LegacyGetDisplayTitleParserFunction(site, pagename) == GetDisplayTitleParserFunction(site, false, pagename)
  {
    if NewFromText(site, pagename).Some? {
      LegacyAgreesWithoutRedirects(site, NewFromText(site, pagename).value);
    }
  }

  /**
   What `#getdisplaytitle` returns is the page name itself or a display title
   that is neither blank nor that page's own name (when redirects are not
   followed, which rules out the redirect fallback).
   */
  lemma ParserFunctionNeverReturnsBlank(site: Site, pagename: string)
    ensures
      var r := GetDisplayTitleParserFunction(site, false, pagename);
      r == pagename || (!IsBlank(r) && r != NewFromText(site, pagename).value.prefixedText)
  {
  }

  /**
   The `text` of the `userpage` entry in the `user-menu` and `user-page` groups
   of the navigation links, `None` where the group has no such entry.
   */
  datatype UserLinks = UserLinks(userMenu: Option<string>, userPage: Option<string>)

  /**
   `onSkinTemplateNavigation__Universal`. For a registered user both entries
   get the same name, computed from the `user-menu` entry when it exists and
   from the `user-page` entry otherwise.
   */
  function OnSkinTemplateNavigation(site: Site, followRedirects: bool, registered: bool, userPage: Title, links: UserLinks): (r: UserLinks)
    ensures !registered ==> r == links
    ensures r.userMenu.Some? <==> links.userMenu.Some?
    ensures r.userPage.Some? <==> links.userPage.Some?
    ensures registered && links.userMenu.Some? ==>
      r.userMenu == Some(GetDisplayTitle(site, followRedirects, userPage).GetOr(links.userMenu.value))
    ensures registered && links.userMenu.Some? && links.userPage.Some? ==> r.userPage == r.userMenu
    ensures registered && links.userMenu.None? && links.userPage.Some? ==>
      r.userPage == Some(GetDisplayTitle(site, followRedirects, userPage).GetOr(links.userPage.value))
  {
    if !registered then links
    else
      var menu := if links.userMenu.Some? then Some(GetDisplayTitle(site, followRedirects, userPage).GetOr(links.userMenu.value)) else None;
      var page :=
        if links.userPage.None? then None
        else if links.userMenu.Some? then menu
        else Some(GetDisplayTitle(site, followRedirects, userPage).GetOr(links.userPage.value));
      UserLinks(menu, page)
  }
}

=== FILE: php_strings.dfy ===
/**
 Models of the PHP string built-ins that the display-title procedure uses:
 `str_replace('_', ' ', …)`, `str_replace('&#160;', '', …)`, `strip_tags`,
 `trim`, `(string)$int` and `substr` with a negative offset or length.
 */
module PhpStrings {
  import opened Wrappers

  // ---------------------------------------------------------------------
  // str_replace('_', ' ', $s)
  // ---------------------------------------------------------------------

  /** `str_replace('_', ' ', s)`: every underscore becomes a space, nothing else moves. */
  function UnderscoresToSpaces(s: string): (r: string)
    ensures |r| == |s|
    ensures forall i :: 0 <= i < |s| ==> r[i] == (if s[i] == '_' then ' ' else s[i])
    ensures '_' !in r
  {
    if s == [] then []
    else [if s[0] == '_' then ' ' else s[0]] + UnderscoresToSpaces(s[1..])
  }

  /** A text without underscores is left exactly as it is. */
  lemma UnderscoreFreeUnchanged(s: string)
    requires '_' !in s
    ensures UnderscoresToSpaces(s) == s
  {
  }

  // ---------------------------------------------------------------------
  // strip_tags($s)
  // ---------------------------------------------------------------------

  /**
   `strip_tags(s)`, simplified: a `<` opens a tag that runs up to and including
   the next `>`; a tag that is never closed swallows the rest of the text. Text
   outside tags, including a stray `>`, is kept in order.
   */
  function StripTags(s: string): (r: string)
    ensures '<' !in r
    ensures |r| <= |s|
    ensures '<' !in s ==> r == s
    ensures forall c :: c in r ==> c in s
  {
    OutsideTag(s)
  }

  /** Copies characters until a `<` starts a tag. */
  function OutsideTag(s: string): (r: string)
    ensures '<' !in r
    ensures |r| <= |s|
    ensures '<' !in s ==> r == s
    ensures forall c :: c in r ==> c in s
    decreases |s|
  {
    if s == [] then []
    else if s[0] == '<' then InsideTag(s[1..])
    else [s[0]] + OutsideTag(s[1..])
  }

  /** Drops characters up to and including the `>` that closes the current tag. */
  function InsideTag(s: string): (r: string)
    ensures '<' !in r
    ensures |r| <= |s|
    ensures forall c :: c in r ==> c in s
    decreases |s|
  {
    if s == [] then []
    else if s[0] == '>' then OutsideTag(s[1..])
    else InsideTag(s[1..])
  }

  /** A complete tag in front of some text disappears and leaves that text's own stripping. */
  lemma {:induction false} StripTagsDropsTag(tag: string, rest: string)
    requires '>' !in tag
    ensures StripTags("<" + tag + ">" + rest) == StripTags(rest)
  {
    var s := "<" + tag + ">" + rest;
    assert s[1..] == tag + ">" + rest;
    InsideTagSkips(tag, rest);
  }

  /** Inside a tag, everything up to the closing `>` is dropped. */
  lemma {:induction false} InsideTagSkips(tag: string, rest: string)
    requires '>' !in tag
    ensures InsideTag(tag + ">" + rest) == OutsideTag(rest)
    decreases |tag|
  {
    var s := tag + ">" + rest;
    if tag == [] {
      assert s[1..] == rest;
    } else {
      assert s[0] == tag[0];
      assert s[1..] == tag[1..] + ">" + rest;
      InsideTagSkips(tag[1..], rest);
    }
  }

  /** Text before the first `<` is kept as it is. */
  lemma {:induction false} StripTagsKeepsPlainPrefix(a: string, b: string)
    requires '<' !in a
    ensures StripTags(a + b) == a + StripTags(b)
  {
    OutsideTagKeepsPlainPrefix(a, b);
  }

  /** Text without markup between an opening and a closing tag is all that stripping leaves. */
  lemma {:induction false} StripTagsSurrounded(openTag: string, name: string, closeTag: string)
    requires '>' !in openTag && '>' !in closeTag && '<' !in name
    ensures StripTags("<" + openTag + ">" + name + "<" + closeTag + ">") == name
  {
    var closing := "<" + closeTag + ">";
    assert "<" + openTag + ">" + name + "<" + closeTag + ">" == "<" + openTag + ">" + (name + closing);
    StripTagsDropsTag(openTag, name + closing);
    StripTagsKeepsPlainPrefix(name, closing);
    assert closing == "<" + closeTag + ">" + "";
    StripTagsDropsTag(closeTag, "");
    assert name + "" == name;
  }

  lemma {:induction false} OutsideTagKeepsPlainPrefix(a: string, b: string)
    requires '<' !in a
    ensures OutsideTag(a + b) == a + OutsideTag(b)
    decreases |a|
  {
    if a != [] {
      var s := a + b;
      assert s[0] == a[0] && s[0] != '<';
      assert s[1..] == a[1..] + b;
      OutsideTagKeepsPlainPrefix(a[1..], b);
      assert OutsideTag(s) == [a[0]] + (a[1..] + OutsideTag(b));
      assert a == [a[0]] + a[1..];
    } else {
      assert a + b == b;
    }
  }

  // ---------------------------------------------------------------------
  // str_replace('&#160;', '', $s)
  // ---------------------------------------------------------------------

  /** The HTML entity of a non-breaking space. */
  const NbspEntity: string := "&#160;"

  /** `s` begins with `&#160;`, compared character by character. */
  predicate StartsWithNbspEntity(s: string) {
    |s| >= 6 && s[0] == '&' && s[1] == '#' && s[2] == '1' && s[3] == '6' && s[4] == '0' && s[5] == ';'
  }

  /**
   `str_replace('&#160;', '', s)`: one left-to-right pass that deletes every
   non-overlapping occurrence of the entity.
   */
  function RemoveNbspEntities(s: string): (r: string)
    ensures |r| <= |s|
    ensures '&' !in s ==> r == s
    decreases |s|
  {
    if StartsWithNbspEntity(s) then RemoveNbspEntities(s[6..])
    else if s == [] then []
    else [s[0]] + RemoveNbspEntities(s[1..])
  }

  /** An entity at the front is deleted. */
  lemma {:induction false} RemoveNbspEntitiesAtFront(b: string)
    ensures RemoveNbspEntities(NbspEntity + b) == RemoveNbspEntities(b)
  {
    var s := NbspEntity + b;
    assert StartsWithNbspEntity(s);
    assert s[6..] == b;
  }

  /** A `&` that does not begin the entity is kept, as in `&amp;`. */
  lemma {:induction false} RemoveNbspEntitiesKeepsAmpersand(t: string)
    requires !StartsWithNbspEntity("&" + t)
    ensures RemoveNbspEntities("&" + t) == "&" + RemoveNbspEntities(t)
  {
    var s := "&" + t;
    assert s[1..] == t;
  }

  /** Text free of `&` in front of an entity is copied through, and the entity is deleted. */
  lemma {:induction false} RemoveNbspEntitiesSplits(a: string, b: string)
    requires '&' !in a
    ensures RemoveNbspEntities(a + NbspEntity + b) == a + RemoveNbspEntities(b)
  {
    assert a + NbspEntity + b == a + (NbspEntity + b);
    RemoveNbspEntitiesKeepsPlainPrefix(a, NbspEntity + b);
    RemoveNbspEntitiesAtFront(b);
  }

  /** Text free of `&` is copied through unchanged, whatever follows it. */
  lemma {:induction false} RemoveNbspEntitiesKeepsPlainPrefix(a: string, t: string)
    requires '&' !in a
    ensures RemoveNbspEntities(a + t) == a + RemoveNbspEntities(t)
    decreases |a|
  {
    if a == [] {
      assert a + t == t;
    } else {
      var s := a + t;
      assert RemoveNbspEntities(s) == [a[0]] + RemoveNbspEntities(a[1..] + t) by {
        assert s[0] == a[0] && s[0] != '&';
        assert !StartsWithNbspEntity(s);
        assert s[1..] == a[1..] + t;
      }
      assert '&' !in a[1..] by {
        forall k | 0 <= k < |a[1..]| ensures a[1..][k] != '&' {
          assert a[1..][k] == a[k + 1];
        }
      }
      RemoveNbspEntitiesKeepsPlainPrefix(a[1..], t);
      HeadTail(a, RemoveNbspEntities(t));
    }
  }

  /** Putting a text's first character back in front of the rest gives back the text. */
  lemma HeadTail(a: string, u: string)
    requires a != []
    ensures [a[0]] + (a[1..] + u) == a + u
  {
    assert a == [a[0]] + a[1..];
  }

  // ---------------------------------------------------------------------
  // trim($s)
  // ---------------------------------------------------------------------

  /** The characters PHP's `trim` removes by default: space, tab, LF, CR, NUL, vertical tab. */
  predicate IsTrimmable(c: char) {
    c == ' ' || c == '\t' || c == '\n' || c == '\r' || c == '\0' || c == '\U{000B}'
  }

  /** Drops trimmable characters from the front. */
  function TrimStart(s: string): (r: string)
    ensures |r| <= |s| && r == s[|s| - |r|..]
    ensures forall i :: 0 <= i < |s| - |r| ==> IsTrimmable(s[i])
    ensures r != [] ==> !IsTrimmable(r[0])
  {
    if s != [] && IsTrimmable(s[0]) then TrimStart(s[1..]) else s
  }

  /** Drops trimmable characters from the back. */
  function TrimEnd(s: string): (r: string)
    ensures |r| <= |s| && r == s[..|r|]
    ensures forall i :: |r| <= i < |s| ==> IsTrimmable(s[i])
    ensures r != [] ==> !IsTrimmable(r[|r| - 1])
  {
    if s != [] && IsTrimmable(s[|s| - 1]) then TrimEnd(s[..|s| - 1]) else s
  }

  /** `r` is the part of `s` that starts at `k`, and everything of `s` before and after it is trimmable. */
  predicate TrimmedStretch(s: string, r: string, k: nat) {
    && k + |r| <= |s|
    && r == s[k..k + |r|]
    && (forall i :: 0 <= i < k ==> IsTrimmable(s[i]))
    && (forall i :: k + |r| <= i < |s| ==> IsTrimmable(s[i]))
  }

  /**
   `trim(s)`: the text without trimmable characters at either end. It is empty
   exactly when the text consists of trimmable characters only.
   */
  function Trim(s: string): (r: string)
    ensures |r| <= |s|
    ensures r != [] ==> !IsTrimmable(r[0]) && !IsTrimmable(r[|r| - 1])
    ensures r == [] <==> forall i :: 0 <= i < |s| ==> IsTrimmable(s[i])
    // the result is a stretch of the input with only trimmable characters around it
    ensures exists k: nat :: TrimmedStretch(s, r, k)
  {
    TrimIsStretch(s);
    TrimEnd(TrimStart(s))
  }

  /** Trimming the front and then the back leaves the stretch after the leading trimmable characters. */
  lemma TrimIsStretch(s: string)
    ensures TrimmedStretch(s, TrimEnd(TrimStart(s)), |s| - |TrimStart(s)|)
  {
    var front := TrimStart(s);
    var r := TrimEnd(front);
    var k := |s| - |front|;
    assert front == s[k..] && r == front[..|r|];
    assert r == s[k..k + |r|];
    assert forall i :: 0 <= i < k ==> IsTrimmable(s[i]);
    assert forall i :: k + |r| <= i < |s| ==> IsTrimmable(s[i]) by {
      forall i | k + |r| <= i < |s| ensures IsTrimmable(s[i]) {
        assert s[i] == front[i - k];
      }
    }
    assert TrimmedStretch(s, r, k);
  }

  // ---------------------------------------------------------------------
  // (string)$int
  // ---------------------------------------------------------------------

  predicate IsDigit(c: char) {
    '0' <= c <= '9'
  }

  function DigitChar(d: nat): (c: char)
    requires d < 10
    ensures IsDigit(c)
  {
    ('0' as int + d) as char
  }

  function DigitValue(c: char): (d: nat)
    requires IsDigit(c)
    ensures d < 10
  {
    c as int - '0' as int
  }

  /** Decimal digits of a natural number, most significant first, without leading zeros. */
  function NatToDecimal(n: nat): (r: string)
    ensures |r| >= 1
    ensures forall i :: 0 <= i < |r| ==> IsDigit(r[i])
    ensures r[0] == '0' ==> n == 0
    decreases n
  {
    if n < 10 then [DigitChar(n)]
    else NatToDecimal(n / 10) + [DigitChar(n % 10)]
  }

  /** The number a string of decimal digits denotes (the reference reading). */
  function DecimalValue(s: string): nat
    requires forall i :: 0 <= i < |s| ==> IsDigit(s[i])
  {
    if s == [] then 0 else DecimalValue(s[..|s| - 1]) * 10 + DigitValue(s[|s| - 1])
  }

  /** Reading back the digits of `n` gives `n`. */
  lemma {:induction false} NatToDecimalRoundTrip(n: nat)
    ensures DecimalValue(NatToDecimal(n)) == n
    decreases n
  {
    if n >= 10 {
      var front := NatToDecimal(n / 10);
      var s := front + [DigitChar(n % 10)];
      assert s[..|s| - 1] == front;
      NatToDecimalRoundTrip(n / 10);
    }
  }

  /** `(string)$i`: the decimal rendering of an integer, with a leading `-` when negative. */
  function IntToDecimal(i: int): (r: string)
    ensures |r| >= 1
    ensures r[0] == '-' <==> i < 0
    // after the sign come only digits, at least one, with no leading zero except for 0 itself
    ensures forall k :: (if i < 0 then 1 else 0) <= k < |r| ==> IsDigit(r[k])
    ensures |r| > (if i < 0 then 1 else 0) && (r[if i < 0 then 1 else 0] == '0' ==> i == 0)
    ensures i == 0 ==> r == "0"
  {
    if i < 0 then "-" + NatToDecimal(-i) else NatToDecimal(i)
  }

  /** Reads an optional `-` followed by one or more decimal digits. */
  function ParseDecimal(s: string): (r: Option<int>)
    ensures r.Some? && r.value < 0 ==> |s| >= 2 && s[0] == '-'
  {
    if |s| >= 2 && s[0] == '-' && (forall i :: 1 <= i < |s| ==> IsDigit(s[i])) then
      var magnitude: int := DecimalValue(s[1..]);
      Some(-magnitude)
    else if |s| >= 1 && (forall i :: 0 <= i < |s| ==> IsDigit(s[i])) then
      Some(DecimalValue(s))
    else None
  }

  /** The decimal rendering of an integer reads back as that integer. */
  lemma {:induction false} IntToDecimalRoundTrip(i: int)
    ensures ParseDecimal(IntToDecimal(i)) == Some(i)
  {
    var s := IntToDecimal(i);
    if i < 0 {
      var digits := NatToDecimal(-i);
      assert s[0] == '-' && s[1..] == digits;
      assert forall k :: 1 <= k < |s| ==> IsDigit(s[k]) by {
        forall k | 1 <= k < |s| ensures IsDigit(s[k]) {
          assert s[k] == digits[k - 1];
        }
      }
      NatToDecimalRoundTrip(-i);
    } else {
      assert s[0] != '-' by {
        assert IsDigit(NatToDecimal(i)[0]);
      }
      NatToDecimalRoundTrip(i);
    }
  }

  /** Distinct integers render as distinct strings. */
  lemma IntToDecimalInjective(i: int, j: int)
    requires IntToDecimal(i) == IntToDecimal(j)
    ensures i == j
  {
    IntToDecimalRoundTrip(i);
    IntToDecimalRoundTrip(j);
  }

  // ---------------------------------------------------------------------
  // substr with negative arguments, and suffixes
  // ---------------------------------------------------------------------

  predicate EndsWith(s: string, suffix: string) {
    |suffix| <= |s| && s[|s| - |suffix|..] == suffix
  }

  /** PHP 8 `substr(s, -n)`: the last `n` characters, or all of `s` when it is shorter (or `n` is 0). */
  function LastChars(s: string, n: nat): (r: string)
    ensures |r| == if 0 < n <= |s| then n else |s|
  {
    if n == 0 || n >= |s| then s else s[|s| - n..]
  }

  /** PHP 8 `substr(s, 0, -n)`: all but the last `n` characters, or `""` when there are not that many. */
  function DropLastChars(s: string, n: nat): (r: string)
    ensures |s| > n ==> r + s[|s| - n..] == s
    ensures |s| <= n ==> r == ""
  {
    if n >= |s| then "" else s[..|s| - n]
  }

  /** For a non-empty `suffix`, comparing `substr(s, -strlen(suffix))` with it is a suffix test. */
  lemma LastCharsIsSuffixTest(s: string, suffix: string)
    requires suffix != ""
    ensures LastChars(s, |suffix|) == suffix <==> EndsWith(s, suffix)
  {
  }

  /** A text built as `head + suffix` ends with `suffix`, and cutting `suffix` off gives back `head`. */
  lemma {:induction false} CutSuffix(head: string, suffix: string)
    requires suffix != ""
    ensures EndsWith(head + suffix, suffix)
    ensures DropLastChars(head + suffix, |suffix|) == head
  {
    var s := head + suffix;
    assert s[|s| - |suffix|..] == suffix;
    if |s| > |suffix| {
      assert s[..|s| - |suffix|] == head;
    }
  }
}

=== FILE: scenarios.dfy ===
/**
 Concrete link scenarios from the extension's integration test suite, replayed
 on a small wiki: two content pages (one with a display title), a redirect to
 each, and the page the links are written on.
 */
module TestSuiteWiki {
  import opened Wrappers
  import opened PhpStrings
  import opened Wiki
  import opened Lookup
  import opened Links

  function Page(name: string, id: nat): Title {
    Title(name, name, name, "", "", 0, true, id, None)
  }

  const WithDisplayTitle: Title := Page("Page with displaytitle", 1)
  const WithoutDisplayTitle: Title := Page("Page without displaytitle", 2)
  const RedirectToWith: Title := Page("Redirect to page with displaytitle", 3)
  const RedirectToWithout: Title := Page("Redirect to page without displaytitle", 4)

  const TestPage: Title := Page("Test Page", 5)

  const TestWiki: Site := Site(
    map["Test Page" := TestPage],
    map[RedirectToWith.prefixedText := WithDisplayTitle, RedirectToWithout.prefixedText := WithoutDisplayTitle],
    map[1 := MyDisplayTitle])

  const MyDisplayTitle: string := "My displaytitle"
  const LowerCaseName: string := "page with displaytitle"
  const CustomText: string := "abc"

  const Settings: Config := Config(false, [], true)

  /** A link as the link renderer hook sees it on an ordinary page. */
  function Render(target: Title, text: LinkText): LinkOutcome {
    OnHtmlPageLinkRendererBegin(TestWiki, Settings, Some("Test Page"), target, text)
  }

  lemma MyDisplayTitleNotBlank()
    ensures !IsBlank(MyDisplayTitle)
  {
    PlainNotBlank(MyDisplayTitle);
  }

  /** A text without markup or entities that starts with a visible character is not blank. */
  lemma PlainNotBlank(v: string)
    requires forall i :: 0 <= i < |v| ==> v[i] != '<' && v[i] != '&'
    requires v != [] && !IsTrimmable(v[0])
    ensures !IsBlank(v)
  {
    PlainBlankIsWhitespace(v);
  }

  /** The two content pages are not redirects; their names start with `P`, the redirects' with `R`. */
  lemma ContentPagesAreNoRedirects()
    ensures RedirectOf(TestWiki, WithDisplayTitle).None?
    ensures RedirectOf(TestWiki, WithoutDisplayTitle).None?
  {
    assert WithDisplayTitle.prefixedText[0] != RedirectToWith.prefixedText[0];
    assert WithDisplayTitle.prefixedText[0] != RedirectToWithout.prefixedText[0];
    assert WithoutDisplayTitle.prefixedText[0] != RedirectToWith.prefixedText[0];
    assert WithoutDisplayTitle.prefixedText[0] != RedirectToWithout.prefixedText[0];
  }

  /** `My displaytitle` is shown for the page that carries it and for the redirect to it. */
  lemma MyDisplayTitleAcceptable()
    ensures Acceptable(MyDisplayTitle, WithDisplayTitle.prefixedText)
    ensures Acceptable(MyDisplayTitle, RedirectToWith.prefixedText)
  {
    MyDisplayTitleNotBlank();
    assert MyDisplayTitle[0] != WithDisplayTitle.prefixedText[0];
    assert MyDisplayTitle[0] != RedirectToWith.prefixedText[0];
  }

  lemma PageWithDisplayTitleShown()
    ensures GetDisplayTitle(TestWiki, true, WithDisplayTitle) == Some(MyDisplayTitle)
  {
    ContentPagesAreNoRedirects();
    MyDisplayTitleAcceptable();
    assert DisplayTitleProperty(TestWiki, WithDisplayTitle.WithoutFragment()) == Some(MyDisplayTitle);
  }

  lemma PageWithoutDisplayTitleBare()
    ensures GetDisplayTitle(TestWiki, true, WithoutDisplayTitle).None?
  {
    ContentPagesAreNoRedirects();
    assert DisplayTitleProperty(TestWiki, WithoutDisplayTitle.WithoutFragment()).None?;
  }

  /** Each redirect of the test wiki leads to its own target; the two names first differ at index 21. */
  lemma RedirectTable()
    ensures RedirectOf(TestWiki, RedirectToWith) == Some(WithDisplayTitle)
    ensures RedirectOf(TestWiki, RedirectToWithout) == Some(WithoutDisplayTitle)
  {
    assert RedirectToWith.prefixedText[21] != RedirectToWithout.prefixedText[21];
  }

  /** Only the page with id 1 carries a display title. */
  lemma DisplayTitleTable()
    ensures DisplayTitleProperty(TestWiki, WithDisplayTitle) == Some(MyDisplayTitle)
    ensures DisplayTitleProperty(TestWiki, WithoutDisplayTitle).None?
    ensures DisplayTitleProperty(TestWiki, RedirectToWith).None?
  {
  }

  lemma RedirectToWithShown()
    ensures GetDisplayTitle(TestWiki, true, RedirectToWith) == Some(MyDisplayTitle)
  {
    MyDisplayTitleAcceptable();
    RedirectTable();
    DisplayTitleTable();
    Lookup.RedirectShowsTargetDisplayTitle(TestWiki, RedirectToWith, WithDisplayTitle, MyDisplayTitle);
  }

  lemma RedirectToWithoutShown()
    ensures GetDisplayTitle(TestWiki, true, RedirectToWithout) == Some(WithoutDisplayTitle.prefixedText)
  {
    RedirectTable();
    DisplayTitleTable();
    RedirectWithoutDisplayTitleShowsTargetName(TestWiki, RedirectToWithout, WithoutDisplayTitle);
  }

  /** The display titles the test wiki yields, redirects followed. */
  lemma TestWikiDisplayTitles()
    ensures GetDisplayTitle(TestWiki, true, WithDisplayTitle) == Some(MyDisplayTitle)
    ensures GetDisplayTitle(TestWiki, true, WithoutDisplayTitle).None?
    ensures GetDisplayTitle(TestWiki, true, RedirectToWith) == Some(MyDisplayTitle)
    ensures GetDisplayTitle(TestWiki, true, RedirectToWithout) == Some(WithoutDisplayTitle.prefixedText)
  {
    PageWithDisplayTitleShown();
    PageWithoutDisplayTitleBare();
    RedirectToWithShown();
    RedirectToWithoutShown();
  }

  /** A test page's name has no underscores, and the page is no category and carries no fragment. */
  lemma PlainName(name: string, id: nat)
    requires forall i :: 0 <= i < |name| ==> name[i] != '_'
    ensures '_' !in Page(name, id).prefixedText && !FragmentApplies(Page(name, id))
  {
  }

  lemma PlainNames()
    ensures '_' !in WithDisplayTitle.prefixedText && !FragmentApplies(WithDisplayTitle)
    ensures '_' !in WithoutDisplayTitle.prefixedText && !FragmentApplies(WithoutDisplayTitle)
    ensures '_' !in RedirectToWith.prefixedText && !FragmentApplies(RedirectToWith)
    ensures '_' !in RedirectToWithout.prefixedText && !FragmentApplies(RedirectToWithout)
  {
    PlainName("Page with displaytitle", 1);
    PlainName("Page without displaytitle", 2);
    PlainName("Redirect to page with displaytitle", 3);
    PlainName("Redirect to page without displaytitle", 4);
  }

  /** The link renderer hook on a label that is the target's name, with the test wiki's settings. */
  lemma RenderByName(target: Title)
    requires !FragmentApplies(target) && '_' !in target.prefixedText
    ensures
      var r := Render(target, Str(target.prefixedText));
      match GetDisplayTitle(TestWiki, true, target)
      case Some(d) => r == LinkOutcome(Armored(d), true)
      case None => r == Unchanged(Str(target.prefixedText))
  {
    assert !RequestExcluded(Some("Test Page"), Settings.excludes);
    NameLabelRendered(TestWiki, Settings, Some("Test Page"), target);
  }

  /** A label without underscores that is none of the target's names is kept. */
  lemma KeptLabel(target: Title, labelText: string)
    requires !FragmentApplies(target)
    requires '_' !in labelText
    requires labelText != target.prefixedText && labelText != target.subpageText && labelText != target.text
    ensures Render(target, Str(labelText)) == Unchanged(Str(labelText))
  {
    UnderscoreFreeUnchanged(labelText);
    assert NewFromText(TestWiki, "Test Page").Some?;
    CustomLabelKept(TestWiki, Settings, "Test Page", Some("Test Page"), target, labelText);
  }
}

/** The test suite's expectations for links on the test wiki. */
module Scenarios {
  import opened Wiki
  import opened Links
  import opened TestSuiteWiki

  /** [[Page with displaytitle]] shows the display title. */
  lemma LinkByNameShowsDisplayTitle()
    ensures Render(WithDisplayTitle, Str(WithDisplayTitle.prefixedText)) == LinkOutcome(Armored(MyDisplayTitle), true)
  {
    TestWikiDisplayTitles();
    PlainNames();
    RenderByName(WithDisplayTitle);
  }

  /** [[Page without displaytitle]] keeps its text. */
  lemma LinkWithoutDisplayTitleKept()
    ensures Render(WithoutDisplayTitle, Str(WithoutDisplayTitle.prefixedText)) == Unchanged(Str(WithoutDisplayTitle.prefixedText))
  {
    TestWikiDisplayTitles();
    PlainNames();
    RenderByName(WithoutDisplayTitle);
  }

  /** A link to a redirect shows the redirect target's display title. */
  lemma RedirectLinkShowsTargetDisplayTitle()
    ensures Render(RedirectToWith, Str(RedirectToWith.prefixedText)) == LinkOutcome(Armored(MyDisplayTitle), true)
  {
    TestWikiDisplayTitles();
    PlainNames();
    RenderByName(RedirectToWith);
  }

  /** A link to a redirect whose target has no display title shows the target's name. */
  lemma RedirectLinkShowsTargetName()
    ensures Render(RedirectToWithout, Str(RedirectToWithout.prefixedText)) == LinkOutcome(Armored(WithoutDisplayTitle.prefixedText), true)
  {
    TestWikiDisplayTitles();
    PlainNames();
    RenderByName(RedirectToWithout);
  }

  /** [[page with displaytitle]] differs from the title in its first letter and keeps its text. */
  lemma LowerCaseLinkKept()
    ensures Render(WithDisplayTitle, Str(LowerCaseName)) == Unchanged(Str(LowerCaseName))
  {
    KeptLabel(WithDisplayTitle, LowerCaseName);
  }

  /** [[Page with displaytitle|abc]] keeps its text. */
  lemma CustomTextKept()
    ensures Render(WithDisplayTitle, Str(CustomText)) == Unchanged(Str(CustomText))
  {
    KeptLabel(WithDisplayTitle, CustomText);
  }

}

=== FILE: wiki.dfy ===
/**
 The part of MediaWiki that the display-title procedure reads: page titles,
 the title parser, the redirect table, the `displaytitle` page property, the
 link-text slot of the link renderer and the extension's three settings.
 All of it is read-only data here.
 */
module Wiki {
  import opened Wrappers

  /** The category namespace (`NS_CATEGORY`). */
  const CategoryNamespace: int := 14

  /**
   A page title as MediaWiki's `Title` presents it.
   - `prefixedText`: namespace and title, e.g. `User:Dingo Page/Sub` (no fragment)
   - `text`: the title without its namespace, e.g. `Dingo Page/Sub`
   - `subpageText`: the last subpage component, e.g. `Sub`
   - `subjectNsText`: the name of the subject namespace (`User` for `User talk:…`, `""` for main)
   - `fragment`: the part after `#`, `""` when there is none
   - `canExist`: false for virtual pages such as `Special:UserLogin`
   - `articleId`: the page id, 0 when the page does not exist
   - `subject`: the subject page of a talk page, `None` for a page that is not a talk page
   */
  datatype Title = Title(
    prefixedText: string,
    text: string,
    subpageText: string,
    subjectNsText: string,
    fragment: string,
    namespace: int,
    canExist: bool,
    articleId: nat,
    subject: Option<Title>)
  {
    predicate IsTalkPage() {
      subject.Some?
    }

    /** `Title::exists()`: the page has an id. */
    predicate Exists() {
      articleId != 0
    }

    /** `createFragmentTarget('')`: the same page without a fragment. */
    function WithoutFragment(): (t: Title)
      ensures t.fragment == ""
      ensures t.prefixedText == prefixedText && t.articleId == articleId && t.canExist == canExist
    {
      this.(fragment := "")
    }
  }

  /**
   The wiki's read-only stores.
   - `parse`: `Title::newFromText`; a name that is not a key does not parse (`null`)
   - `redirects`: the one-hop redirect target of a page, by prefixed text
   - `displayTitles`: the `displaytitle` page property, by page id
   */
  datatype Site = Site(
    parse: map<string, Title>,
    redirects: map<string, Title>,
    displayTitles: map<nat, string>)

  /** `Title::newFromText(name)`. */
  function NewFromText(site: Site, name: string): (r: Option<Title>)
    ensures r.Some? <==> name in site.parse
  {
    if name in site.parse then Some(site.parse[name]) else None
  }

  /** `RedirectLookup::getRedirectTarget` / `WikiPage::getRedirectTarget` of a page. */
  function RedirectOf(site: Site, page: Title): (r: Option<Title>)
    ensures r.Some? <==> page.prefixedText in site.redirects
  {
    if page.prefixedText in site.redirects then Some(site.redirects[page.prefixedText]) else None
  }

  /**
   The `displaytitle` property of a page, as `PageProps::getProperties` answers
   it: only existing pages (id other than 0) can carry properties.
   */
  function DisplayTitleProperty(site: Site, page: Title): (r: Option<string>)
    ensures r.Some? <==> page.Exists() && page.articleId in site.displayTitles
  {
    if page.Exists() && page.articleId in site.displayTitles then Some(site.displayTitles[page.articleId]) else None
  }

  /**
   The link-text slot `$html` handed to the link hooks: not set (`null`), a
   plain string, an integer, or an `HtmlArmor` holding raw HTML.
   */
  datatype LinkText = Unset | Str(s: string) | Int(i: int) | Armored(html: string)

  /** The display title written into the slot: wrapped in `HtmlArmor` when `wrap` is set. */
  function Wrapped(value: string, wrap: bool): (t: LinkText)
    ensures wrap <==> t.Armored?
    ensures t.Armored? ==> t.html == value
    ensures t.Str? ==> t.s == value
  {
    if wrap then Armored(value) else Str(value)
  }

  /** The extension's settings `$wgDisplayTitleHideSubtitle`, `$wgDisplayTitleExcludes`, `$wgDisplayTitleFollowRedirects`. */
  datatype Config = Config(hideSubtitle: bool, excludes: seq<string>, followRedirects: bool)
}

=== FILE: wrappers.dfy ===
/** The optional value used wherever MediaWiki answers `null` or "not found". */
module Wrappers {

  datatype Option<+T> = None | Some(value: T) {

    /** The wrapped value, or `default` when there is none. */
    function GetOr(default: T): T {
      match this
      case Some(v) => v
      case None => default
    }
  }
}
